=== FILE: README.md ===
# stat sampler — a Dafny model

This project models the sampling engine of the `stat` PHP extension (`zend_stat_sampler.c`).
A profiler thread wakes at a fixed interval and reads another live process's memory through
`process_vm_readv`. From that memory it rebuilds one sample: the heap size, the current
execution frame, its function kind, and its file and line. It also resolves the class and
function names and, when enabled, copies the raw argument slots. The sample goes to an
output buffer.

The model is sequential and functional:

- **Remote reader** (`Remote`). The target's memory is an oracle: a byte map per pid. A read
  returns all the requested bytes or fails. Integers are decoded little-endian.
- **Symbol resolver** (`Resolver`). `ReadString` makes three hops: pointer, then length, then
  a copy of the whole descriptor. It also counts the local buffers allocated and freed.
- **Frame walker** (`Walker`, `WalkerFacts`). `Walk` is the short-circuiting pipeline of
  `zend_stat_sample`. It starts from a caller-supplied empty sample. `Tick` is the single
  insertion into the buffer.
- **Clock** (`Clock`). `Normalize` is the decrement loop of `zend_stat_sampler_clock`.
  `Advance` is the deadline update the loop performs.
- **Timer loop** (`Loop`). `Run` replays the thread loop over a sequence of wait outcomes.
  Each outcome carries the `closed` flag seen on wake, the target's memory and the
  timestamp.
- **Lifecycle** (`Lifecycle`). `Activate` and `Deactivate` drive the `active`/`closed` flags.

Some behaviours of the code are worth spelling out, because a reader might expect otherwise:

- A `MemoryOnly` sample can still carry fields. These are the argument snapshot, a user
  function's line number and file name stored before a later failure, the scope and
  function name stored after a failed file lookup, and a resolved class name followed by a
  failed function-name lookup.
- A user-function sample can have line 0. Its file is then never looked up.
- On a spurious or signalled wake, the deadline still moves on by one interval.

Engine struct offsets come from headers that are not part of this model. They are a `Layout`
record parameter. The model fixes only these values:

- the heap-header `size` offset, 16, from the struct at the top of the file;
- the user-function type tag, 2;
- the allocator alignment, 8.

The user sample kind is taken to be the value the type tag leaves in `sample.type`.

## Model

| member | source | states |
|---|---|---|
| Remote.Read | zend_stat_sampler.c:51-65 | A read succeeds exactly when the process exists and every byte of the range is mapped. It then returns exactly `size` bytes, each equal to the target's byte at that address. It never returns a short copy. |
| Remote.ReadHeld | zend_stat_sampler.c:51-65 | Reading a range the target holds returns precisely the held bytes. |
| Remote.ReadStoredUnsigned | zend_stat_sampler.c:51-65 | A width-byte integer stored in the target reads back as the same value. |
| Remote.LittleEndianRoundTrip | zend_stat_sampler.c:60 | Decoding the little-endian bytes of any value that fits the width gives the value back. This is how a copied word is read as an integer. |
| Remote.LittleEndianBound | zend_stat_sampler.c:69-80 | A word of n copied bytes decodes to a value below 256^n. So the `size_t` length copied into `length` is always below 2^64. |
| Resolver.AlignedSize | zend_stat_sampler.c:87 | The copy size is a multiple of the alignment and below 2^64. Without wrap-around it is the least such multiple not below the unaligned size. |
| Resolver.ReadString | zend_stat_sampler.c:67-93 | If the pointer or length read fails, no buffer is allocated and NULL is returned. If the copy fails, the one buffer is freed, so a failure never leaves a buffer behind. On success, the result is the full descriptor copy of the size computed from the length read. Exactly one buffer then goes to interning. |
| Resolver.ResolvesIffAllHopsRead | zend_stat_sampler.c:67-93 | The resolver returns a string if and only if all three hops can be read. |
| Resolver.ResolvesFromHops | zend_stat_sampler.c:71-92 | When the three hops read a pointer, a length and the descriptor bytes, the resolver returns those bytes with one allocation and no free. |
| Resolver.ResolvesStoredString | zend_stat_sampler.c:67-92 | A target that stores a descriptor pointer, that descriptor's length and its full contents resolves to exactly those contents. |
| Walker.FrameAt | zend_stat_sampler.c:116-118 | A frame is obtained exactly when the whole frame structure can be copied. Its argument count fits in 32 bits. |
| WalkerFacts.FrameStored | zend_stat_sampler.c:116-118 | A frame held in the target is copied whole. Its function pointer, opline pointer and argument count are the little-endian words at their offsets in that copy. |
| WalkerFacts.FrameStoredValues | zend_stat_sampler.c:116-118 | A frame that stores a function pointer, an opline pointer and an argument count in the target's byte order decodes to exactly those three values. |
| Walker.FrameOf | zend_stat_sampler.c:109-122 | The walk reaches a frame exactly when the frame slot can be read, holds a non-NULL pointer, and the frame there can be copied. The frame it returns is the copy of the frame at that pointer. |
| Walker.Start | zend_stat_sampler.c:99-107 | The sample starts as the empty sample with the sampler's pid and the time. Memory is the heap's size counter when readable, otherwise the empty sample's value: a failed heap read is ignored. |
| Walker.CaptureArgs | zend_stat_sampler.c:124-135 | With capture off, the snapshot is untouched. With capture on, its length is min(count, capacity) when that minimum is 0 or the slots can be read, and 0 otherwise. It is never above the count or the capacity. A non-empty snapshot holds, at the front of its buffer, exactly the slots read from the frame. The buffer bytes past them, and the whole buffer of an empty snapshot, keep their earlier contents. No other field changes. |
| Walker.Locate | zend_stat_sampler.c:154-162 | Line 0 leaves the sample untouched. For a nonzero line, the stored file is exactly the resolver's result for the file-name slot, NULL on failure. The kind drops to MemoryOnly exactly when it already had, or the lookup failed; otherwise it stays. Only the kind and the file change. |
| Walker.Symbols | zend_stat_sampler.c:167-191 | An unreadable scope pointer only drops the kind. A NULL scope stores the function name resolved from the function. A non-NULL scope stores its resolved class name as the scope; if that fails, the kind drops and the function name is never stored, otherwise the function name is stored. From a function kind, the kind survives exactly when the scope, any class name and the function name can all be read. Only the kind and symbol change. |
| Walker.Name | zend_stat_sampler.c:185-191 | The stored function name is exactly the resolver's result for the function-name slot, NULL on failure. The kind drops to MemoryOnly exactly when it already had, or the lookup failed. Nothing else changes. |
| Walker.Describe | zend_stat_sampler.c:137-191 | Classification and naming never touch pid, time, memory or the argument snapshot. A surviving kind has a function name. A user sample with a nonzero line has a file. An internal sample's location is untouched. |
| Walker.Walk | zend_stat_sampler.c:96-194 | The sample carries the sampler's pid and the given time. Memory is the heap counter or the empty value. The snapshot is untouched when capture is off. A non-MemoryOnly sample has a function name. A user sample with a nonzero line has a file. An internal sample keeps the empty location. |
| Walker.Tick | zend_stat_sampler.c:193-194 | Every walk inserts exactly one sample at the end of the buffer, leaving earlier entries as they were. The inserted sample is the walked sample, and it carries the sampler's pid and the tick's time. |
| WalkerFacts.KindIffEveryReadSucceeds | zend_stat_sampler.c:109-191 | The sample keeps a function kind if and only if every read on its path succeeds: frame slot and frame, type tag, line and file for user code, scope and class name, function name. It is the user kind iff, in addition, the type tag is the user-function tag. |
| WalkerFacts.NoFrameMeansMemoryOnly | zend_stat_sampler.c:109-122 | An unreadable or NULL frame pointer, or an unreadable frame, yields MemoryOnly. Location, symbol and argument snapshot are those of the empty sample. |
| WalkerFacts.TypeFailureKeepsOnlyArgs | zend_stat_sampler.c:124-143 | An unreadable type tag yields MemoryOnly with no location and no symbol. The sample keeps the argument snapshot already taken. |
| WalkerFacts.LineFailureKeepsNoLocation | zend_stat_sampler.c:145-152 | An unreadable line of a user function yields MemoryOnly with the empty location and symbol. |
| WalkerFacts.ScopeFailureDropsSymbol | zend_stat_sampler.c:167-172 | For user and internal functions alike, an unreadable scope pointer yields MemoryOnly with the empty sample's symbol. |
| WalkerFacts.ScopeFailureKeepsLocation | zend_stat_sampler.c:154-172 | For a user function whose file resolved, an unreadable scope pointer yields MemoryOnly with no symbol. The file and line already stored remain. |
| WalkerFacts.ClassNameFailureSkipsName | zend_stat_sampler.c:173-182 | For a user or internal function, an unresolvable class name yields MemoryOnly with a NULL scope. The function name is never read and stays the empty sample's. |
| WalkerFacts.FileFailureStillNamesFunction | zend_stat_sampler.c:154-191 | A failed file lookup yields MemoryOnly with a NULL file. For a free function or a class method, the walk still stores the class name as the scope, and also the function name. |
| WalkerFacts.ClassMethodSample | zend_stat_sampler.c:137-191 | For a user or internal method whose class name and function name resolve, the sample's symbol is exactly that class name and function name. It is MemoryOnly exactly when it is a user function on a nonzero line whose file lookup failed. |
| WalkerFacts.ZeroLineStaysUser | zend_stat_sampler.c:145-165 | A user function on line 0 keeps the user kind and does not look up its file. |
| WalkerFacts.UserFrameSample | zend_stat_sampler.c:145-191 | A user frame with a line, a file, no class and a name yields the user kind. The sample has exactly that file and line and that function name. |
| WalkerFacts.ArgInfoBounds | zend_stat_sampler.c:124-135 | With capture on and a reachable frame, the snapshot length is min(count, capacity) when that minimum is 0 or the slots can be read, and 0 otherwise. It is never above either bound. Otherwise the snapshot is the empty sample's. |
| Clock.Normalize | zend_stat_sampler.c:197-210 | The remainder is below one second and is the count modulo 10^9. The 32-bit result is the whole seconds modulo 2^32. When those seconds fit in 32 bits, result·10^9 + remainder equals the input. |
| Clock.Advance | zend_stat_sampler.c:224-228 | The new nanosecond field is below one second. When the interval's carry fits, the absolute deadline advances by exactly the interval. |
| Loop.Collected | zend_stat_sampler.c:230-233 | A run inserts at most one sample per wait, each carrying the sampler's pid. |
| Loop.CollectedCount | zend_stat_sampler.c:230-240 | A run inserts exactly as many samples as it has timed-out waits. |
| Loop.CollectedAreWalks | zend_stat_sampler.c:230-240 | The sample inserted for a timed-out wait is the walk of the target as that wait found it, stamped with that wait's time. It sits after one sample for each earlier timeout. |
| Loop.CollectedStep | zend_stat_sampler.c:230-240 | One more wait adds its sample at the end if it timed out and adds nothing otherwise. |
| Loop.CollectedInTimeOrder | zend_stat_sampler.c:230-233 | If the timestamps read at each wake never go back, the samples are in time order and none is later than the last wake. |
| Loop.Turn | zend_stat_sampler.c:224-240 | One turn keeps the nanosecond field normalised. Within the carry bound it moves the deadline to origin + (k+1)·interval. It extends the samples by the walk of that wake only when the wait timed out. |
| Loop.Run | zend_stat_sampler.c:212-252 | A failed first clock read exits before any wait or sample. The walker runs once per timed-out wait and at no other time. Every wait before the last neither failed nor saw the flag set. The loop leaves on any other wait error, or when it sees `closed`, including before the first wait. Within the carry bound, the deadline is start + waits·interval. It stays normalised. |
| Lifecycle.IntervalNanos | zend_stat_sampler.c:269 | The stored interval is a 64-bit value congruent to interval·1000. It equals interval·1000 when that product is in range. |
| Lifecycle.Activate | zend_stat_sampler.c:254-285 | Activation fills pid, capture flag, buffer and anchors from its arguments. It leaves `closed` clear and sets `active` iff the thread was created. |
| Lifecycle.Deactivate | zend_stat_sampler.c:287-305 | An inactive slot is unchanged. An active one ends closed and inactive with every other field unchanged. Afterwards the slot is never active. |
| Lifecycle.DeactivateIdempotent | zend_stat_sampler.c:287-290 | Deactivating twice is the same as deactivating once. |
| Lifecycle.ActivateThenDeactivate | zend_stat_sampler.c:254-305 | After activation and deactivation the slot is inactive. It is closed iff its thread had started, and is unchanged by the deactivation otherwise. |

## Left out

- The `process_vm_readv` system call is not modelled. A read is taken to be all-or-nothing,
  as documented for a single iovec: a failed read leaves its destination untouched.
- Struct layouts and the macros that compute offsets are not modelled. They come from
  engine headers, so offsets are `Layout` parameters.
- `ZEND_STAT_SAMPLE_MAX_ARGINFO` is a `Layout` field, for the same reason.
- The contents of `zend_stat_sample_empty` are not fixed. The walker takes the empty sample
  as a parameter.
- `zend_stat_string` interning is external. The interned handle is modelled as the copied
  descriptor bytes.
- `zend_stat_buffer_insert` is external. The buffer is modelled as a sequence that grows by
  one sample per insertion.
- Resolver.ReadString: the allocation at line 83 is assumed to succeed.
- The executor-globals address (lines 38-49) and `zend_mm_get_heap` are inputs to
  `Activate` (`Anchors`). They are computed in the profiler's own process and cannot be
  observed here.
- `clock_gettime` and `zend_stat_time` are inputs. The first clock reading is an `Option`,
  and each wake carries its timestamp. The empty `asm` barrier has no semantic content.
- Mutexes, condition variables, thread creation and join are not modelled. Thread creation's
  outcome is an input. A wait's outcome is an input event, with the `closed` flag read on
  wake. Join is taken to return once the loop has exited. This is a concurrency concern, not
  sequential logic.
- Loop.Run: the thread is observed only over a finite sequence of wakes. Running out of them
  is reported as `Waiting`, not as an exit of the thread.
- Clock.Advance: the drift-free deadline is proved only within `CarryFits`, an interval of
  up to about 136 years. Beyond that, the source's 32-bit seconds counter wraps, and the
  model computes that wrap without a drift claim.
- Each walk reads from one snapshot of the target's memory. The target cannot change between
  the reads of one walk, so a descriptor's length cannot change between the length read and
  the copy at lines 77-87. The real target runs concurrently and gives no such guarantee.
- The argument snapshot buffer is a sequence of any length, not a fixed array of
  `ZEND_STAT_SAMPLE_MAX_ARGINFO` slots. The empty sample's buffer is not required to have that
  size, so a copy longer than the buffer grows it, which the fixed C array cannot do. For an
  empty sample with a full-size buffer, the model matches the C code.
- Address arithmetic is unbounded. A pointer plus an offset never wraps at 2^64 in the model.
- Lifecycle.IntervalNanos: `interval * 1000` overflowing a signed 64-bit `zend_long` is
  undefined behaviour in C. The model takes the two's-complement wrap into the unsigned
  field.

=== FILE: clock.dfy ===
/**
 * Deadline arithmetic of the timer thread: `zend_stat_sampler_clock` splits a nanosecond
 * count into whole seconds (a 32-bit counter) and the nanosecond remainder, and the loop
 * uses it to push the absolute wake time forward by one interval.
 */
module Clock {
  import opened Remote
  import opened Types

  /** An absolute wake time; `nsec` is kept below one second by the normaliser. */
  datatype Timespec = Timespec(sec: int, nsec: nat)

  /** The wake time in nanoseconds. */
  function Deadline(t: Timespec): int {
    t.sec * NanosPerSecond + t.nsec
  }

  /** Quotient and remainder by a positive divisor are unique. */
  lemma DivModUnique(c: nat, q: nat, rest: nat)
    requires rest < NanosPerSecond && rest + q * NanosPerSecond == c
    ensures q == c / NanosPerSecond && rest == c % NanosPerSecond
  {
  }

  lemma ModSucc(k: nat)
    ensures ((k % U32) + 1) % U32 == (k + 1) % U32
  {
  }

  /**
   * `zend_stat_sampler_clock`: subtract whole seconds one at a time, counting them in a
   * 32-bit result. The remainder is always the nanoseconds past the last whole second; the
   * seconds are exact whenever they fit in 32 bits.
   */
  method Normalize(cumulative: nat) returns (seconds: nat, ns: nat)
    requires cumulative < U64
    ensures ns < NanosPerSecond && ns == cumulative % NanosPerSecond
    ensures seconds < U32 && seconds == (cumulative / NanosPerSecond) % U32
    ensures cumulative / NanosPerSecond < U32 ==> seconds * NanosPerSecond + ns == cumulative
  {
    var rest: nat := cumulative;
    seconds := 0;
    ghost var carried: nat := 0;
    while rest >= NanosPerSecond
      invariant rest + carried * NanosPerSecond == cumulative
      invariant seconds == carried % U32
      decreases rest
    {
      ModSucc(carried);
      rest := rest - NanosPerSecond;
      seconds := (seconds + 1) % U32;
      carried := carried + 1;
    }
    DivModUnique(cumulative, carried, rest);
    ns := rest;
  }

  /**
   * Intervals for which one deadline step neither wraps the 64-bit sum nor overflows the
   * 32-bit seconds counter, whatever the current nanosecond field below one second.
   */
  predicate CarryFits(interval: nat) {
    && NanosPerSecond - 1 + interval < U64
    && (NanosPerSecond - 1 + interval) / NanosPerSecond < U32
  }

  lemma DivMonotone(a: nat, b: nat)
    requires a <= b
    ensures a / NanosPerSecond <= b / NanosPerSecond
  {
  }

  /**
   * The deadline update of one loop turn: the nanosecond field plus the interval, taken as
   * a 64-bit sum, is normalised and its whole seconds are added to the seconds field.
   */
  method Advance(clk: Timespec, interval: nat) returns (next: Timespec)
    requires clk.nsec < NanosPerSecond && interval < U64
    ensures next.nsec < NanosPerSecond
    ensures CarryFits(interval) ==> Deadline(next) == Deadline(clk) + interval
  {
    var cumulative := (clk.nsec + interval) % U64;
    var seconds, ns := Normalize(cumulative);
    next := Timespec(clk.sec + seconds, ns);
    if CarryFits(interval) {
      assert cumulative == clk.nsec + interval;
      DivMonotone(cumulative, NanosPerSecond - 1 + interval);
    }
  }
}

=== FILE: lifecycle.dfy ===
/**
 * Activation and deactivation of a sampler slot: the `active`/`closed` flag machine around
 * the timer thread. Thread creation's outcome is an input; joining the thread is taken to
 * return once the loop has exited, which the `closed` flag set here forces at its next check.
 */
module Lifecycle {
  import opened Remote
  import opened Types

  /** The two addresses activation computes from the profiler's own runtime. */
  datatype Anchors = Anchors(heap: Addr, frameSlot: Addr)

  const MicrosToNanos: int := 1000
  const LongMin: int := -0x8000_0000_0000_0000
  const LongMax: int := 0x7fff_ffff_ffff_ffff

  /** A running timer has not been asked to close. */
  predicate Consistent(s: Sampler) {
    s.timer.active ==> !s.timer.closed
  }

  /** The timer interval in nanoseconds, stored as a 64-bit unsigned value. */
  function IntervalNanos(interval: int): (r: nat)
    requires LongMin <= interval <= LongMax
    ensures r < U64
    ensures 0 <= interval * MicrosToNanos < U64 ==> r == interval * MicrosToNanos
    ensures (r - interval * MicrosToNanos) % U64 == 0
  {
    (interval * MicrosToNanos) % U64
  }

  /**
   * `zend_stat_sampler_activate`: the slot is zeroed and filled from the arguments, so its
   * previous contents play no part; the sampler is active only if its thread was created.
   */
  function Activate(pid: Pid, interval: int, arginfo: bool, buffer: nat, anchors: Anchors,
                    threadCreated: bool): (r: Sampler)
    requires LongMin <= interval <= LongMax
    ensures r.pid == pid && r.arginfo == arginfo && r.buffer == buffer
    ensures r.heap == anchors.heap && r.fp == anchors.frameSlot
    ensures r.timer.interval == IntervalNanos(interval)
    ensures !r.timer.closed
    ensures r.timer.active <==> threadCreated
    ensures Consistent(r)
  {
    Sampler(pid, arginfo, buffer, anchors.heap, anchors.frameSlot,
            Timer(IntervalNanos(interval), threadCreated, false))
  }

  /**
   * `zend_stat_sampler_deactivate`: nothing happens to an inactive slot; an active one is
   * closed, its thread joined, and marked inactive. No other field changes.
   */
  function Deactivate(s: Sampler): (r: Sampler)
    ensures !s.timer.active ==> r == s
    ensures s.timer.active ==> r.timer.closed && !r.timer.active
    ensures r.timer.interval == s.timer.interval
    ensures r == s.(timer := r.timer)
    ensures !r.timer.active
  {
    if !s.timer.active then s
    else s.(timer := s.timer.(closed := true, active := false))
  }

  /** Deactivating twice is deactivating once. */
  lemma DeactivateIdempotent(s: Sampler)
    ensures Deactivate(Deactivate(s)) == Deactivate(s)
  {
  }

  /**
   * Activating and then deactivating leaves the slot inactive; if the thread was started the
   * slot ends up closed, otherwise it is exactly as activation left it.
   */
  lemma ActivateThenDeactivate(pid: Pid, interval: int, arginfo: bool, buffer: nat,
                               anchors: Anchors, threadCreated: bool)
    requires LongMin <= interval <= LongMax
    ensures var a := Activate(pid, interval, arginfo, buffer, anchors, threadCreated);
            var d := Deactivate(a);
            && !d.timer.active
            && (d.timer.closed <==> threadCreated)
            && (!threadCreated ==> d == a)
  {
  }
}

=== FILE: loop.dfy ===
/**
 * The timer thread `zend_stat_sampler`, run sequentially. Each turn advances the absolute
 * deadline by one interval and waits; what the wait returns is an input event, together
 * with the `closed` flag the thread sees when it next checks it, the target's memory at that
 * moment and the timestamp a sample would carry. Joining the thread is "the loop returned".
 */
module Loop {
  import opened Wrappers
  import opened Remote
  import opened Types
  import opened Walker
  import opened Clock

  /** The result of the timed condition wait. */
  datatype WaitResult = TimedOut | Invalid | Signalled | OtherError(code: int)

  datatype Wake = Wake(result: WaitResult, closed: bool, target: Os, elapsed: int)

  /** Why the thread stopped; `Waiting` means it is still waiting after the last event given. */
  datatype Exit = ClockFailed | Closed | WaitFailed(code: int) | Waiting

  /** The samples a run over `wakes` inserts: one per timed-out wait, in order. */
  function Collected(layout: Layout, s: Sampler, empty: Sample, wakes: seq<Wake>): (r: seq<Sample>)
    requires layout.WellFormed()
    ensures |r| <= |wakes|
    ensures forall i :: 0 <= i < |r| ==> r[i].pid == s.pid
    decreases |wakes|
  {
    if wakes == [] then []
    else
      var last := wakes[|wakes| - 1];
      var earlier := Collected(layout, s, empty, wakes[..|wakes| - 1]);
      if last.result.TimedOut? then Tick(layout, last.target, s, empty, last.elapsed, earlier)
      else earlier
  }

  /** How many of `wakes` are timeouts. */
  function Timeouts(wakes: seq<Wake>): nat {
    if wakes == [] then 0
    else Timeouts(wakes[..|wakes| - 1]) + (if wakes[|wakes| - 1].result.TimedOut? then 1 else 0)
  }

  /** A run inserts exactly one sample per timed-out wait. */
  lemma {:induction false} CollectedCount(layout: Layout, s: Sampler, empty: Sample, wakes: seq<Wake>)
    requires layout.WellFormed()
    ensures |Collected(layout, s, empty, wakes)| == Timeouts(wakes)
    decreases |wakes|
  {
    if wakes != [] {
      CollectedCount(layout, s, empty, wakes[..|wakes| - 1]);
    }
  }

  /** Extending a run by one wait adds that wait's sample, if it timed out, at the end. */
  lemma CollectedStep(layout: Layout, s: Sampler, empty: Sample, wakes: seq<Wake>, k: nat)
    requires layout.WellFormed()
    requires k < |wakes|
    ensures Collected(layout, s, empty, wakes[..k + 1]) ==
              if wakes[k].result.TimedOut? then
                Tick(layout, wakes[k].target, s, empty, wakes[k].elapsed, Collected(layout, s, empty, wakes[..k]))
              else
                Collected(layout, s, empty, wakes[..k])
  {
    assert wakes[..k + 1][..k] == wakes[..k];
  }

  /**
   * The sample a timed-out wait inserts is the walk of the target as that wait found it; it
   * sits after one sample for each earlier timeout.
   */
  lemma {:induction false} CollectedAreWalks(layout: Layout, s: Sampler, empty: Sample, wakes: seq<Wake>, k: nat)
    requires layout.WellFormed()
    requires k < |wakes| && wakes[k].result.TimedOut?
    ensures Timeouts(wakes[..k]) < |Collected(layout, s, empty, wakes)|
    ensures Collected(layout, s, empty, wakes)[Timeouts(wakes[..k])] ==
              Walk(layout, wakes[k].target, s, empty, wakes[k].elapsed)
    decreases |wakes|
  {
    CollectedCount(layout, s, empty, wakes[..k]);
    var prefix := wakes[..|wakes| - 1];
    if k < |wakes| - 1 {
      assert prefix[..k] == wakes[..k];
      CollectedAreWalks(layout, s, empty, prefix, k);
    } else {
      assert prefix == wakes[..k];
    }
  }

  predicate TimeOrdered(samples: seq<Sample>) {
    forall i, j :: 0 <= i <= j < |samples| ==> samples[i].elapsed <= samples[j].elapsed
  }

  predicate NotAfter(samples: seq<Sample>, t: int) {
    forall i :: 0 <= i < |samples| ==> samples[i].elapsed <= t
  }

  /**
   * Samples come out in time order when the timestamps the thread reads do not go back:
   * the stream is sorted and no sample is later than the last wake.
   */
  lemma {:induction false} CollectedInTimeOrder(layout: Layout, s: Sampler, empty: Sample, wakes: seq<Wake>)
    requires layout.WellFormed()
    requires forall i, j :: 0 <= i <= j < |wakes| ==> wakes[i].elapsed <= wakes[j].elapsed
    ensures TimeOrdered(Collected(layout, s, empty, wakes))
    ensures wakes != [] ==> NotAfter(Collected(layout, s, empty, wakes), wakes[|wakes| - 1].elapsed)
    decreases |wakes|
  {
    if wakes != [] {
      var prefix := wakes[..|wakes| - 1];
      var last := wakes[|wakes| - 1];
      CollectedInTimeOrder(layout, s, empty, prefix);
      var earlier := Collected(layout, s, empty, prefix);
      if prefix != [] {
        assert prefix[|prefix| - 1].elapsed <= last.elapsed;
        NotAfterLater(earlier, prefix[|prefix| - 1].elapsed, last.elapsed);
      }
      if last.result.TimedOut? {
        AppendInTimeOrder(earlier, Walk(layout, last.target, s, empty, last.elapsed));
      }
    }
  }

  lemma NotAfterLater(samples: seq<Sample>, t: int, u: int)
    requires NotAfter(samples, t) && t <= u
    ensures NotAfter(samples, u)
  {
  }

  /** Appending a sample no earlier than every sample so far keeps the stream in order. */
  lemma AppendInTimeOrder(samples: seq<Sample>, x: Sample)
    requires TimeOrdered(samples) && NotAfter(samples, x.elapsed)
    ensures TimeOrdered(samples + [x]) && NotAfter(samples + [x], x.elapsed)
  {
  }

  /** The `closed` flag as the loop condition sees it after `waits` waits. */
  function ClosedAfter(initiallyClosed: bool, wakes: seq<Wake>, waits: nat): bool
    requires waits <= |wakes|
  {
    if waits == 0 then initiallyClosed else wakes[waits - 1].closed
  }

  lemma NextDeadline(first: int, before: int, after: int, k: nat, interval: nat)
    requires before == first + k * interval && after == before + interval
    ensures after == first + (k + 1) * interval
  {
  }

  /**
   * One turn of the loop: push the deadline forward by the interval, wait, and on a timeout
   * take a sample. The other wait results insert nothing; the caller decides whether to go on.
   */
  method Turn(layout: Layout, s: Sampler, empty: Sample, origin: int, clk: Timespec,
              wakes: seq<Wake>, k: nat, samples: seq<Sample>)
    returns (next: Timespec, after: seq<Sample>)
    requires layout.WellFormed()
    requires s.timer.interval < U64 && clk.nsec < NanosPerSecond
    requires k < |wakes|
    requires samples == Collected(layout, s, empty, wakes[..k])
    requires CarryFits(s.timer.interval) ==> Deadline(clk) == origin + k * s.timer.interval
    ensures next.nsec < NanosPerSecond
    ensures CarryFits(s.timer.interval) ==> Deadline(next) == origin + (k + 1) * s.timer.interval
    ensures after == Collected(layout, s, empty, wakes[..k + 1])
  {
    next := Advance(clk, s.timer.interval);
    if CarryFits(s.timer.interval) {
      NextDeadline(origin, Deadline(clk), Deadline(next), k, s.timer.interval);
    }
    CollectedStep(layout, s, empty, wakes, k);
    var w := wakes[k];
    match w.result {
      case TimedOut =>
        after := Tick(layout, w.target, s, empty, w.elapsed, samples);
      case Invalid =>
        // the deadline is already past: go round and catch up
        after := samples;
      case Signalled =>
        after := samples;
      case OtherError(_) =>
        after := samples;
    }
  }

  /**
   * The sampling loop. `start` is the initial clock reading (None when the clock could not be
   * read) and `initiallyClosed` the flag's value when the thread first takes the lock.
   */
  method Run(layout: Layout, s: Sampler, empty: Sample, start: Option<Timespec>,
             initiallyClosed: bool, wakes: seq<Wake>)
    returns (samples: seq<Sample>, waits: nat, clk: Timespec, exit: Exit)
    requires layout.WellFormed()
    requires s.timer.interval < U64
    requires start.Some? ==> start.value.nsec < NanosPerSecond
    // a failed first clock read ends the thread before any wait or sample
    ensures exit == ClockFailed <==> start.None?
    ensures start.None? ==> samples == [] && waits == 0
    // the walker runs once per timed-out wait and at no other time
    ensures waits <= |wakes|
    ensures samples == Collected(layout, s, empty, wakes[..waits])
    // every wait but the last one let the loop go on
    ensures forall j :: 0 <= j < waits ==> !wakes[j].result.OtherError?
                                            || (j == waits - 1 && exit.WaitFailed?)
    ensures forall j :: 0 <= j < waits - 1 ==> !wakes[j].closed
    // the loop leaves on any other wait result, or when it sees the flag set
    ensures exit.WaitFailed? ==> 0 < waits && wakes[waits - 1].result == OtherError(exit.code)
    ensures exit == Closed ==> ClosedAfter(initiallyClosed, wakes, waits)
    ensures start.Some? && initiallyClosed ==> exit == Closed && waits == 0
    ensures exit == Waiting ==> waits == |wakes| && !ClosedAfter(initiallyClosed, wakes, waits)
    // the deadline moves by exactly one interval per wait and stays normalised
    ensures start.Some? ==> clk.nsec < NanosPerSecond
    ensures start.Some? && CarryFits(s.timer.interval) ==>
              Deadline(clk) == Deadline(start.value) + waits * s.timer.interval
  {
    samples, waits, clk := [], 0, Timespec(0, 0);
    if start.None? {
      return samples, waits, clk, ClockFailed;
    }
    clk := start.value;
    exit := Closed;
    var closed := initiallyClosed;
    while !closed
      invariant waits <= |wakes|
      invariant initiallyClosed ==> waits == 0
      invariant closed == ClosedAfter(initiallyClosed, wakes, waits)
      invariant samples == Collected(layout, s, empty, wakes[..waits])
      invariant forall j :: 0 <= j < waits ==> !wakes[j].result.OtherError?
      invariant forall j :: 0 <= j < waits - 1 ==> !wakes[j].closed
      invariant clk.nsec < NanosPerSecond
      invariant CarryFits(s.timer.interval) ==>
                  Deadline(clk) == Deadline(start.value) + waits * s.timer.interval
      decreases |wakes| - waits
    {
      if waits == |wakes| {
        exit := Waiting;
        break;
      }
      var w := wakes[waits];
      clk, samples := Turn(layout, s, empty, Deadline(start.value), clk, wakes, waits, samples);
      waits := waits + 1;
      if w.result.OtherError? {
        exit := WaitFailed(w.result.code);
        break;
      }
      closed := w.closed;
    }
  }
}

=== FILE: remote.dfy ===
/**
 * The remote reader: an exact-length copy of bytes out of another process's address space.
 *
 * The target's memory is an oracle — for each live process, a partial map from addresses to
 * bytes. A read of `size` bytes succeeds only when the process exists and every byte of the
 * range is mapped; it never produces a short result, and a failed read hands nothing back
 * (one iovec is never split, so the caller's destination stays untouched).
 */
module Remote {
  import opened Wrappers

  type byte = b: int | 0 <= b < 256

  /** A virtual address in the target; 0 is NULL. */
  type Addr = nat
  type Pid = int

  const Null: Addr := 0

  /** The mapped bytes of one process. */
  type Memory = map<Addr, byte>

  /** Every process the reader can reach, by pid; a missing pid is a process that is gone. */
  type Os = map<Pid, Memory>

  const U32: nat := 0x1_0000_0000
  const U64: nat := 0x1_0000_0000_0000_0000

  /** Width in bytes of the integer types the sampler copies out of the target (LP64). */
  const PointerSize: nat := 8
  const SizeTSize: nat := 8
  const Uint32Size: nat := 4

  /** The whole range `[addr, addr + size)` of process `pid` can be copied. */
  predicate Readable(os: Os, pid: Pid, addr: Addr, size: nat) {
    pid in os && forall a :: addr <= a < addr + size ==> a in os[pid]
  }

  /** `zend_stat_sampler_read`: all `size` bytes at `addr`, or failure. */
  function Read(os: Os, pid: Pid, addr: Addr, size: nat): (r: Option<seq<byte>>)
    ensures r.Some? <==> Readable(os, pid, addr, size)
    ensures r.Some? ==> |r.value| == size
    ensures r.Some? ==> forall i :: 0 <= i < size ==> r.value[i] == os[pid][addr + i]
  {
    if Readable(os, pid, addr, size) then
      Some(seq(size, i requires 0 <= i < size => os[pid][addr + i]))
    else
      None
  }

  function Pow256(n: nat): nat {
    if n == 0 then 1 else 256 * Pow256(n - 1)
  }

  /** The unsigned integer whose little-endian representation is `bs`. */
  function FromLittleEndian(bs: seq<byte>): nat {
    if bs == [] then 0 else bs[0] + 256 * FromLittleEndian(bs[1..])
  }

  /** `|bs|` little-endian bytes hold a value below 256 to the power `|bs|`. */
  lemma {:induction false} LittleEndianBound(bs: seq<byte>)
    ensures FromLittleEndian(bs) < Pow256(|bs|)
  {
    if bs != [] {
      LittleEndianBound(bs[1..]);
    }
  }

  /** The `width`-byte little-endian representation of `n` (truncated to that width). */
  function ToLittleEndian(n: nat, width: nat): (bs: seq<byte>)
    ensures |bs| == width
  {
    if width == 0 then [] else [n % 256] + ToLittleEndian(n / 256, width - 1)
  }

  /** Decoding inverts encoding for every value that fits the width. */
  lemma {:induction false} LittleEndianRoundTrip(n: nat, width: nat)
    requires n < Pow256(width)
    ensures FromLittleEndian(ToLittleEndian(n, width)) == n
  {
    if width > 0 {
      var bs := ToLittleEndian(n, width);
      assert bs[1..] == ToLittleEndian(n / 256, width - 1);
      assert n / 256 < Pow256(width - 1);
      LittleEndianRoundTrip(n / 256, width - 1);
    }
  }

  /** A typed read: an unsigned integer of `width` bytes stored in the target's byte order. */
  function ReadUnsigned(os: Os, pid: Pid, addr: Addr, width: nat): (r: Option<nat>)
    ensures r.Some? <==> Readable(os, pid, addr, width)
  {
    match Read(os, pid, addr, width)
    case None => None
    case Some(bs) => Some(FromLittleEndian(bs))
  }

  /** Process `pid` holds exactly the bytes `bs` at `addr`. */
  predicate Holds(os: Os, pid: Pid, addr: Addr, bs: seq<byte>) {
    pid in os && forall i :: 0 <= i < |bs| ==> addr + i in os[pid] && os[pid][addr + i] == bs[i]
  }

  /** Reading a range the target holds returns precisely its contents. */
  lemma ReadHeld(os: Os, pid: Pid, addr: Addr, bs: seq<byte>)
    requires Holds(os, pid, addr, bs)
    ensures Read(os, pid, addr, |bs|) == Some(bs)
  {
    var r := Read(os, pid, addr, |bs|);
    forall a | addr <= a < addr + |bs|
      ensures a in os[pid]
    {
      var i := a - addr;
      var b := bs[i];
      assert addr + i == a;
    }
    assert r.Some?;
    assert r.value == bs;
  }

  /** An integer read from a range the target holds decodes those bytes. */
  lemma ReadUnsignedHeld(os: Os, pid: Pid, addr: Addr, bs: seq<byte>)
    requires Holds(os, pid, addr, bs)
    ensures ReadUnsigned(os, pid, addr, |bs|) == Some(FromLittleEndian(bs))
  {
    ReadHeld(os, pid, addr, bs);
  }

  /** A value stored in the target as `width` little-endian bytes reads back unchanged. */
  lemma ReadStoredUnsigned(os: Os, pid: Pid, addr: Addr, n: nat, width: nat)
    requires n < Pow256(width)
    requires Holds(os, pid, addr, ToLittleEndian(n, width))
    ensures ReadUnsigned(os, pid, addr, width) == Some(n)
  {
    ReadUnsignedHeld(os, pid, addr, ToLittleEndian(n, width));
    LittleEndianRoundTrip(n, width);
  }
}

=== FILE: resolver.dfy ===
/**
 * The symbol resolver `zend_stat_sampler_read_string`: follow a pointer field to a string
 * descriptor, read its length, then copy the whole descriptor into a freshly allocated local
 * buffer that is handed to the interning table.
 */
module Resolver {
  import opened Wrappers
  import opened Remote
  import opened Types

  /**
   * The outcome of one resolution: the interned string (None for NULL) and how many local
   * buffers were allocated and freed on the way.
   */
  datatype Resolution = Resolution(str: Option<Str>, allocs: nat, frees: nat)

  /** `ZEND_MM_ALIGNED_SIZE`: round up to the allocator alignment, in size_t arithmetic. */
  function AlignedSize(n: nat): (r: nat)
    requires n < U64
    ensures r < U64 && r % Alignment == 0
    ensures n + Alignment - 1 < U64 ==> n <= r < n + Alignment
  {
    ((n + Alignment - 1) % U64) / Alignment * Alignment
  }

  /** Bytes copied for a descriptor of payload length `len`: header, payload and terminator. */
  function CopySize(layout: Layout, len: nat): nat
    requires len < U64
  {
    AlignedSize((layout.stringHeader + len + 1) % U64)
  }

  /** Hop one: the descriptor pointer stored in the field at `base + offset`. */
  function Descriptor(os: Os, pid: Pid, base: Addr, offset: nat): Option<Addr> {
    ReadUnsigned(os, pid, base + offset, PointerSize)
  }

  /** Hop two: the length recorded in the descriptor at `str`. */
  function DescriptorLength(layout: Layout, os: Os, pid: Pid, str: Addr): (r: Option<nat>)
    ensures r.Some? ==> r.value < U64
  {
    match Read(os, pid, str + layout.stringLenAt, SizeTSize)
    case None => None
    case Some(bs) =>
      LittleEndianBound(bs);
      assert Pow256(SizeTSize) == U64;
      ReadUnsigned(os, pid, str + layout.stringLenAt, SizeTSize)
  }

  function ReadString(layout: Layout, os: Os, pid: Pid, base: Addr, offset: nat): (r: Resolution)
    // a failed resolution leaves no buffer behind
    ensures r.str.None? ==> r.allocs == r.frees
    // a successful one allocates exactly the buffer it hands on
    ensures r.str.Some? ==> r.allocs == 1 && r.frees == 0
    // nothing is allocated before the length is known
    ensures Descriptor(os, pid, base, offset).None? ==> r == Resolution(None, 0, 0)
    ensures Descriptor(os, pid, base, offset).Some? &&
            DescriptorLength(layout, os, pid, Descriptor(os, pid, base, offset).value).None?
            ==> r == Resolution(None, 0, 0)
    // a failed copy frees the one buffer allocated for it
    ensures Descriptor(os, pid, base, offset).Some? &&
            DescriptorLength(layout, os, pid, Descriptor(os, pid, base, offset).value).Some? &&
            r.str.None?
            ==> r == Resolution(None, 1, 1)
    // a returned string is a full copy of the descriptor, never a prefix of it
    ensures r.str.Some? ==>
              && Descriptor(os, pid, base, offset).Some?
              && var str := Descriptor(os, pid, base, offset).value;
              && DescriptorLength(layout, os, pid, str).Some?
              && var size := CopySize(layout, DescriptorLength(layout, os, pid, str).value);
              && r.str == Read(os, pid, str, size)
  {
    match Descriptor(os, pid, base, offset)
    case None => Resolution(None, 0, 0)
    case Some(str) =>
      match DescriptorLength(layout, os, pid, str)
      case None => Resolution(None, 0, 0)
      case Some(len) =>
        // zend_string_alloc precedes the third read; the buffer is freed if that read fails
        match Read(os, pid, str, CopySize(layout, len))
        case None => Resolution(None, 1, 1)
        case Some(bytes) => Resolution(Some(bytes), 1, 0)
  }

  /** The resolver succeeds exactly when all three hops can be read. */
  lemma ResolvesIffAllHopsRead(layout: Layout, os: Os, pid: Pid, base: Addr, offset: nat)
    ensures ReadString(layout, os, pid, base, offset).str.Some? <==>
              && Readable(os, pid, base + offset, PointerSize)
              && var str := Descriptor(os, pid, base, offset).value;
              && Readable(os, pid, str + layout.stringLenAt, SizeTSize)
              && Readable(os, pid, str, CopySize(layout, DescriptorLength(layout, os, pid, str).value))
  {
  }

  /** The resolver's result is fixed by what its three hops read. */
  lemma ResolvesFromHops(layout: Layout, os: Os, pid: Pid, base: Addr, offset: nat,
                         str: Addr, len: nat, contents: seq<byte>)
    requires Descriptor(os, pid, base, offset) == Some(str)
    requires DescriptorLength(layout, os, pid, str) == Some(len)
    requires Read(os, pid, str, CopySize(layout, len)) == Some(contents)
    ensures ReadString(layout, os, pid, base, offset) == Resolution(Some(contents), 1, 0)
  {
  }

  lemma DescriptorHeld(os: Os, pid: Pid, base: Addr, offset: nat, pointer: seq<byte>)
    requires |pointer| == PointerSize && Holds(os, pid, base + offset, pointer)
    ensures Descriptor(os, pid, base, offset) == Some(FromLittleEndian(pointer))
  {
    ReadUnsignedHeld(os, pid, base + offset, pointer);
  }

  lemma LengthHeld(layout: Layout, os: Os, pid: Pid, str: Addr, length: seq<byte>)
    requires |length| == SizeTSize && Holds(os, pid, str + layout.stringLenAt, length)
    ensures DescriptorLength(layout, os, pid, str) == Some(FromLittleEndian(length))
  {
    ReadUnsignedHeld(os, pid, str + layout.stringLenAt, length);
  }

  /**
   * A target that stores a pointer to a descriptor at `base + offset`, its length in that
   * descriptor, and the descriptor's bytes resolves to exactly those bytes.
   */
  lemma ResolvesStoredString(layout: Layout, os: Os, pid: Pid, base: Addr, offset: nat,
                             pointer: seq<byte>, length: seq<byte>, contents: seq<byte>)
    requires |pointer| == PointerSize && |length| == SizeTSize
    requires Holds(os, pid, base + offset, pointer)
    requires Holds(os, pid, FromLittleEndian(pointer) + layout.stringLenAt, length)
    requires Holds(os, pid, FromLittleEndian(pointer), contents)
    requires |contents| == (LittleEndianBound(length); CopySize(layout, FromLittleEndian(length)))
    ensures ReadString(layout, os, pid, base, offset) == Resolution(Some(contents), 1, 0)
  {
    var str := FromLittleEndian(pointer);
    DescriptorHeld(os, pid, base, offset, pointer);
    LengthHeld(layout, os, pid, str, length);
    ReadHeld(os, pid, str, contents);
    LittleEndianBound(length);
    ResolvesFromHops(layout, os, pid, base, offset, str, FromLittleEndian(length), contents);
  }
}

=== FILE: types.dfy ===
/**
 * The sampler's data model: the layout table of the target runtime, the sample record the
 * frame walker produces, and the sampler slot owned by activation and the timer thread.
 */
module Types {
  import opened Wrappers
  import opened Remote

  /** Offset of `size` in the heap header declared beside the sampler (int, pointer, size_t). */
  const HeapSizeOffset: nat := 16

  /** The engine's type tag of a user (compiled) function. */
  const UserFunctionType: byte := 2

  /** The engine allocator's alignment, used to size a copied string descriptor. */
  const Alignment: nat := 8

  const NanosPerSecond: nat := 1_000_000_000

  /**
   * Byte offsets and sizes of the target runtime's structures. They belong to the engine
   * headers, so the model takes them as data rather than fixing their values.
   */
  datatype Layout = Layout(
    frameSize: nat,       // size of an execution frame
    funcAt: nat,          // frame: pointer to the running function
    oplineAt: nat,        // frame: pointer to the current opcode
    numArgsAt: nat,       // frame: 32-bit argument count
    argsAt: nat,          // distance from a frame to its first argument slot
    zvalSize: nat,        // size of one argument slot
    typeAt: nat,          // function: one-byte type tag
    scopeAt: nat,         // function: pointer to the enclosing class
    functionNameAt: nat,  // function: pointer to the name string
    filenameAt: nat,      // user function: pointer to the file name string
    linenoAt: nat,        // opcode: 32-bit line number
    classNameAt: nat,     // class: pointer to the name string
    stringLenAt: nat,     // string descriptor: length field
    stringHeader: nat,    // string descriptor: bytes before the payload
    maxArgInfo: nat       // capacity of a sample's argument snapshot
  ) {
    /** The frame fields the walker decodes lie inside the frame it copies. */
    predicate WellFormed() {
      && funcAt + PointerSize <= frameSize
      && oplineAt + PointerSize <= frameSize
      && numArgsAt + Uint32Size <= frameSize
    }
  }

  /** The fields of a copied execution frame that the walker uses. */
  datatype Frame = Frame(func: Addr, opline: Addr, numArgs: nat)

  /** An interned string: the bytes of the copied descriptor. */
  type Str = seq<byte>

  datatype Kind = MemoryOnly | InternalFunction | UserFunction

  datatype Location = Location(file: Option<Str>, line: nat)

  /** `scope` is the enclosing class name, `name` the function name. */
  datatype Symbol = Symbol(scope: Option<Str>, name: Option<Str>)

  /** The argument snapshot: a count and the raw slot bytes copied for it. */
  datatype ArgInfo = ArgInfo(length: nat, info: seq<byte>)

  datatype Sample = Sample(
    pid: Pid,
    elapsed: int,
    kind: Kind,
    memory: nat,
    location: Location,
    symbol: Symbol,
    arginfo: ArgInfo
  )

  /** Timer control block; the mutex, condition variable and thread handle are not modelled. */
  datatype Timer = Timer(interval: nat, active: bool, closed: bool)

  /** One sampler slot: the target, the two anchor addresses, options and the timer. */
  datatype Sampler = Sampler(
    pid: Pid,
    arginfo: bool,
    buffer: nat,
    heap: Addr,
    fp: Addr,
    timer: Timer
  )

  function Min(a: nat, b: nat): nat {
    if a <= b then a else b
  }
}

=== FILE: walker.dfy ===
/**
 * The frame walker `zend_stat_sample`: one short-circuiting pass over remote reads that fills
 * in a copy of the empty sample and ends at the single insertion into the output buffer.
 *
 * The stages below follow the order of `zend_stat_sample`. A stage that hits one of its
 * `goto _zend_stat_sample_insert` exits returns the sample as it stands with kind
 * `MemoryOnly`; a failed file-name lookup also sets `MemoryOnly` but lets the walk go on,
 * because `zend_stat_sample` does not jump to the insert there.
 */
module Walker {
  import opened Wrappers
  import opened Remote
  import opened Types
  import opened Resolver

  // ---- single hops --------------------------------------------------------------------

  /** The heap's `size` counter. */
  function HeapUsage(os: Os, s: Sampler): Option<nat> {
    ReadUnsigned(os, s.pid, s.heap + HeapSizeOffset, SizeTSize)
  }

  /** The pointer held in the current-execution-frame slot. */
  function CurrentFrame(os: Os, s: Sampler): Option<Addr> {
    ReadUnsigned(os, s.pid, s.fp, PointerSize)
  }

  /** A copy of the whole execution frame at `fp`, decoded. */
  function FrameAt(layout: Layout, os: Os, pid: Pid, fp: Addr): (r: Option<Frame>)
    requires layout.WellFormed()
    ensures r.Some? <==> Readable(os, pid, fp, layout.frameSize)
    ensures r.Some? ==> r.value.numArgs < U32
  {
    match Read(os, pid, fp, layout.frameSize)
    case None => None
    case Some(bytes) =>
      LittleEndianBound(bytes[layout.numArgsAt .. layout.numArgsAt + Uint32Size]);
      assert Pow256(Uint32Size) == U32;
      Some(Frame(
        FromLittleEndian(bytes[layout.funcAt .. layout.funcAt + PointerSize]),
        FromLittleEndian(bytes[layout.oplineAt .. layout.oplineAt + PointerSize]),
        FromLittleEndian(bytes[layout.numArgsAt .. layout.numArgsAt + Uint32Size])))
  }

  /** The one-byte type tag of the running function. */
  function FunctionType(layout: Layout, os: Os, pid: Pid, frame: Frame): Option<byte> {
    match Read(os, pid, frame.func + layout.typeAt, 1)
    case None => None
    case Some(bs) => Some(bs[0])
  }

  /** The line number of the current opcode. */
  function LineOf(layout: Layout, os: Os, pid: Pid, frame: Frame): Option<nat> {
    ReadUnsigned(os, pid, frame.opline + layout.linenoAt, Uint32Size)
  }

  /** The running function's scope (class) pointer. */
  function ScopeOf(layout: Layout, os: Os, pid: Pid, frame: Frame): Option<Addr> {
    ReadUnsigned(os, pid, frame.func + layout.scopeAt, PointerSize)
  }

  function FileName(layout: Layout, os: Os, pid: Pid, frame: Frame): Option<Str> {
    ReadString(layout, os, pid, frame.func, layout.filenameAt).str
  }

  function ClassName(layout: Layout, os: Os, pid: Pid, scope: Addr): Option<Str> {
    ReadString(layout, os, pid, scope, layout.classNameAt).str
  }

  function FunctionName(layout: Layout, os: Os, pid: Pid, frame: Frame): Option<Str> {
    ReadString(layout, os, pid, frame.func, layout.functionNameAt).str
  }

  /**
   * The frame pointer and a copy of the frame it points to; None when the slot cannot be
   * read, holds NULL, or points at a frame that cannot be copied.
   */
  function FrameOf(layout: Layout, os: Os, s: Sampler): (r: Option<(Addr, Frame)>)
    requires layout.WellFormed()
    ensures r.Some? <==>
              && CurrentFrame(os, s).Some?
              && CurrentFrame(os, s).value != Null
              && Readable(os, s.pid, CurrentFrame(os, s).value, layout.frameSize)
    ensures r.Some? ==> r.value.0 == CurrentFrame(os, s).value && r.value.0 != Null
    ensures r.Some? ==> FrameAt(layout, os, s.pid, r.value.0) == Some(r.value.1)
  {
    match CurrentFrame(os, s)
    case None => None
    case Some(fp) =>
      if fp == Null then None
      else
        match FrameAt(layout, os, s.pid, fp)
        case None => None
        case Some(frame) => Some((fp, frame))
  }

  // ---- stages -------------------------------------------------------------------------

  /** Start from the empty sample: stamp pid and time, and take the heap counter if readable. */
  function Start(os: Os, s: Sampler, empty: Sample, elapsed: int): (r: Sample)
    ensures r.pid == s.pid && r.elapsed == elapsed
    ensures r.memory == HeapUsage(os, s).GetOr(empty.memory)
    ensures r.kind == empty.kind && r.location == empty.location
    ensures r.symbol == empty.symbol && r.arginfo == empty.arginfo
  {
    var stamped := empty.(pid := s.pid, elapsed := elapsed);
    match HeapUsage(os, s)
    case None => stamped
    case Some(m) => stamped.(memory := m)
  }

  /**
   * `slots` copied over the front of the fixed snapshot buffer `info`: the bytes past the
   * copy keep what the buffer held before.
   */
  function Overwrite(info: seq<byte>, slots: seq<byte>): (r: seq<byte>)
    ensures |r| == if |slots| <= |info| then |info| else |slots|
    ensures r[..|slots|] == slots
    ensures forall i :: |slots| <= i < |info| ==> r[i] == info[i]
  {
    if |slots| <= |info| then slots + info[|slots|..] else slots
  }

  /** The argument snapshot, taken only when the sampler was activated with capture on. */
  function CaptureArgs(layout: Layout, os: Os, s: Sampler, fp: Addr, frame: Frame, x: Sample): (r: Sample)
    ensures r == x.(arginfo := r.arginfo)
    ensures !s.arginfo ==> r.arginfo == x.arginfo
    ensures s.arginfo ==> r.arginfo.length <= frame.numArgs && r.arginfo.length <= layout.maxArgInfo
    // min(count, capacity) when there is nothing to copy or the slots can be read, else 0
    ensures s.arginfo ==>
              var n := Min(frame.numArgs, layout.maxArgInfo);
              r.arginfo.length ==
                (if n == 0 || Readable(os, s.pid, fp + layout.argsAt, layout.zvalSize * n) then n else 0)
    // a non-empty snapshot holds exactly the slots read from the frame at its front ...
    ensures s.arginfo && r.arginfo.length > 0 ==>
              && |r.arginfo.info| >= layout.zvalSize * r.arginfo.length
              && Read(os, s.pid, fp + layout.argsAt, layout.zvalSize * r.arginfo.length)
                   == Some(r.arginfo.info[..layout.zvalSize * r.arginfo.length])
    // ... and the rest of the buffer, like an empty snapshot's, is the one it started from
    ensures |r.arginfo.info| >= |x.arginfo.info|
    ensures forall i :: layout.zvalSize * r.arginfo.length <= i < |x.arginfo.info| ==>
              r.arginfo.info[i] == x.arginfo.info[i]
    ensures s.arginfo && r.arginfo.length == 0 ==> r.arginfo.info == x.arginfo.info
  {
    if !s.arginfo then x
    else
      var n := Min(frame.numArgs, layout.maxArgInfo);
      if n == 0 then x.(arginfo := x.arginfo.(length := 0))
      else
        var size := layout.zvalSize * n;
        match Read(os, s.pid, fp + layout.argsAt, size)
        case None => x.(arginfo := x.arginfo.(length := 0))
        case Some(slots) =>
          var info := Overwrite(x.arginfo.info, slots);
          assert info[..size] == slots;
          x.(arginfo := ArgInfo(n, info))
  }

  /**
   * A user function with a nonzero line looks up its file and stores the result, NULL on
   * failure; only a failed lookup drops the kind, and the walk goes on either way.
   */
  function Locate(layout: Layout, os: Os, pid: Pid, frame: Frame, x: Sample): (r: Sample)
    ensures x.location.line == 0 ==> r == x
    ensures r == x.(kind := r.kind, location := x.location.(file := r.location.file))
    ensures x.location.line != 0 ==>
              && r.location.file == FileName(layout, os, pid, frame)
              && (r.kind == x.kind || r.kind == MemoryOnly)
              && (r.kind == MemoryOnly <==> x.kind == MemoryOnly || FileName(layout, os, pid, frame).None?)
  {
    if x.location.line == 0 then x
    else
      var file := FileName(layout, os, pid, frame);
      var y := x.(location := x.location.(file := file));
      if file.None? then y.(kind := MemoryOnly) else y
  }

  /** The function name is stored, NULL on failure, and only a failure drops the kind. */
  function Name(layout: Layout, os: Os, pid: Pid, frame: Frame, x: Sample): (r: Sample)
    ensures r == x.(kind := r.kind, symbol := x.symbol.(name := r.symbol.name))
    ensures r.symbol.name == FunctionName(layout, os, pid, frame)
    ensures r.kind == x.kind || r.kind == MemoryOnly
    ensures r.kind == MemoryOnly <==> x.kind == MemoryOnly || FunctionName(layout, os, pid, frame).None?
  {
    var name := FunctionName(layout, os, pid, frame);
    var y := x.(symbol := x.symbol.(name := name));
    if name.None? then y.(kind := MemoryOnly) else y
  }

  /** Scope pointer, class name (for a non-NULL scope) and function name can all be read. */
  predicate SymbolsReadable(layout: Layout, os: Os, pid: Pid, frame: Frame) {
    && ScopeOf(layout, os, pid, frame).Some?
    && (ScopeOf(layout, os, pid, frame).value != Null ==>
          ClassName(layout, os, pid, ScopeOf(layout, os, pid, frame).value).Some?)
    && FunctionName(layout, os, pid, frame).Some?
  }

  /**
   * The scope pointer, its class name when it is not NULL, then the function name. An
   * unreadable scope or class name ends the walk before the function name is read.
   */
  function Symbols(layout: Layout, os: Os, pid: Pid, frame: Frame, x: Sample): (r: Sample)
    ensures r == x.(kind := r.kind, symbol := r.symbol)
    ensures r.kind == x.kind || r.kind == MemoryOnly
    ensures x.kind != MemoryOnly ==> (r.kind != MemoryOnly <==> SymbolsReadable(layout, os, pid, frame))
    ensures ScopeOf(layout, os, pid, frame).None? ==> r == x.(kind := MemoryOnly)
    ensures ScopeOf(layout, os, pid, frame) == Some(Null) ==>
              r.symbol == Symbol(x.symbol.scope, FunctionName(layout, os, pid, frame))
    ensures ScopeOf(layout, os, pid, frame).Some? && ScopeOf(layout, os, pid, frame).value != Null ==>
              var cls := ClassName(layout, os, pid, ScopeOf(layout, os, pid, frame).value);
              && r.symbol.scope == cls
              && r.symbol.name == (if cls.None? then x.symbol.name else FunctionName(layout, os, pid, frame))
              && (cls.None? ==> r.kind == MemoryOnly)
  {
    match ScopeOf(layout, os, pid, frame)
    case None => x.(kind := MemoryOnly)
    case Some(scope) =>
      if scope == Null then Name(layout, os, pid, frame, x)
      else
        var cls := ClassName(layout, os, pid, scope);
        var y := x.(symbol := x.symbol.(scope := cls));
        if cls.None? then y.(kind := MemoryOnly) else Name(layout, os, pid, frame, y)
  }

  /** Classify by the function's type tag, then locate and name it. */
  function Describe(layout: Layout, os: Os, pid: Pid, frame: Frame, x: Sample): (r: Sample)
    ensures r.pid == x.pid && r.elapsed == x.elapsed && r.memory == x.memory && r.arginfo == x.arginfo
    ensures r.kind != MemoryOnly ==> r.symbol.name.Some?
    ensures r.kind == UserFunction && r.location.line != 0 ==> r.location.file.Some?
    ensures r.kind == InternalFunction ==> r.location == x.location
  {
    match FunctionType(layout, os, pid, frame)
    case None => x.(kind := MemoryOnly)
    case Some(t) =>
      if t == UserFunctionType then
        match LineOf(layout, os, pid, frame)
        case None => x.(kind := MemoryOnly)
        case Some(line) =>
          var located := Locate(layout, os, pid, frame, x.(kind := UserFunction, location := x.location.(line := line)));
          Symbols(layout, os, pid, frame, located)
      else
        Symbols(layout, os, pid, frame, x.(kind := InternalFunction))
  }

  // ---- the walk -----------------------------------------------------------------------

  /** `zend_stat_sample` up to the insertion: the sample that is handed to the buffer. */
  function Walk(layout: Layout, os: Os, s: Sampler, empty: Sample, elapsed: int): (r: Sample)
    requires layout.WellFormed()
    ensures r.pid == s.pid && r.elapsed == elapsed
    ensures r.memory == HeapUsage(os, s).GetOr(empty.memory)
    ensures !s.arginfo ==> r.arginfo == empty.arginfo
    ensures r.kind != MemoryOnly ==> r.symbol.name.Some?
    ensures r.kind == UserFunction && r.location.line != 0 ==> r.location.file.Some?
    ensures r.kind == InternalFunction ==> r.location == empty.location
  {
    var base := Start(os, s, empty, elapsed);
    match FrameOf(layout, os, s)
    case None => base.(kind := MemoryOnly)
    case Some(reached) =>
      var (fp, frame) := reached;
      Describe(layout, os, s.pid, frame, CaptureArgs(layout, os, s, fp, frame, base))
  }

  /** One tick: walk the frame and insert the sample — exactly one insertion per walk. */
  function Tick(layout: Layout, os: Os, s: Sampler, empty: Sample, elapsed: int, buffer: seq<Sample>): (r: seq<Sample>)
    requires layout.WellFormed()
    ensures |r| == |buffer| + 1 && r[..|buffer|] == buffer
    ensures r[|buffer|] == Walk(layout, os, s, empty, elapsed)
    ensures r[|buffer|].pid == s.pid && r[|buffer|].elapsed == elapsed
  {
    buffer + [Walk(layout, os, s, empty, elapsed)]
  }
}

=== FILE: walker_facts.dfy ===
/**
 * What the frame walker guarantees about the sample it inserts, stated against the remote
 * reads it performs: when the kind survives, which failure leaves which fields untouched,
 * the argument-snapshot bounds, and the quirks of the walk's error exits.
 */
module WalkerFacts {
  import opened Wrappers
  import opened Remote
  import opened Types
  import opened Walker

  /**
   * A frame held in the target decodes to the little-endian words at its field offsets: the
   * function pointer, the opline pointer and the argument count.
   */
  lemma FrameStored(layout: Layout, os: Os, pid: Pid, fp: Addr, frame: seq<byte>)
    requires layout.WellFormed()
    requires |frame| == layout.frameSize && Holds(os, pid, fp, frame)
    ensures FrameAt(layout, os, pid, fp) == Some(Frame(
              FromLittleEndian(frame[layout.funcAt .. layout.funcAt + PointerSize]),
              FromLittleEndian(frame[layout.oplineAt .. layout.oplineAt + PointerSize]),
              FromLittleEndian(frame[layout.numArgsAt .. layout.numArgsAt + Uint32Size])))
  {
    ReadHeld(os, pid, fp, frame);
  }

  /**
   * The same in terms of values: a frame storing a function pointer, an opline pointer and an
   * argument count in the target's byte order decodes to exactly those values.
   */
  lemma FrameStoredValues(layout: Layout, os: Os, pid: Pid, fp: Addr, frame: seq<byte>,
                          func: nat, opline: nat, numArgs: nat)
    requires layout.WellFormed()
    requires |frame| == layout.frameSize && Holds(os, pid, fp, frame)
    requires func < Pow256(PointerSize) && opline < Pow256(PointerSize) && numArgs < Pow256(Uint32Size)
    requires frame[layout.funcAt .. layout.funcAt + PointerSize] == ToLittleEndian(func, PointerSize)
    requires frame[layout.oplineAt .. layout.oplineAt + PointerSize] == ToLittleEndian(opline, PointerSize)
    requires frame[layout.numArgsAt .. layout.numArgsAt + Uint32Size] == ToLittleEndian(numArgs, Uint32Size)
    ensures FrameAt(layout, os, pid, fp) == Some(Frame(func, opline, numArgs))
  {
    FrameStored(layout, os, pid, fp, frame);
    LittleEndianRoundTrip(func, PointerSize);
    LittleEndianRoundTrip(opline, PointerSize);
    LittleEndianRoundTrip(numArgs, Uint32Size);
  }

  /** Every read the walk makes after copying `frame` succeeds. */
  predicate FrameDescribable(layout: Layout, os: Os, pid: Pid, frame: Frame) {
    && FunctionType(layout, os, pid, frame).Some?
    && (FunctionType(layout, os, pid, frame).value == UserFunctionType ==>
          && LineOf(layout, os, pid, frame).Some?
          && (LineOf(layout, os, pid, frame).value != 0 ==> FileName(layout, os, pid, frame).Some?))
    && SymbolsReadable(layout, os, pid, frame)
  }

  /**
   * The sample keeps a function kind exactly when every read on its path succeeded; the kind
   * is the user kind exactly when, in addition, the type tag names a user function.
   */
  lemma KindIffEveryReadSucceeds(layout: Layout, os: Os, s: Sampler, empty: Sample, elapsed: int)
    requires layout.WellFormed()
    ensures var r := Walk(layout, os, s, empty, elapsed);
            r.kind != MemoryOnly <==>
              FrameOf(layout, os, s).Some? && FrameDescribable(layout, os, s.pid, FrameOf(layout, os, s).value.1)
    ensures var r := Walk(layout, os, s, empty, elapsed);
            r.kind == UserFunction <==>
              && FrameOf(layout, os, s).Some?
              && FrameDescribable(layout, os, s.pid, FrameOf(layout, os, s).value.1)
              && FunctionType(layout, os, s.pid, FrameOf(layout, os, s).value.1) == Some(UserFunctionType)
  {
  }

  /**
   * A NULL or unreadable frame pointer, or an unreadable frame, jumps straight to the insert:
   * the sample is the stamped empty sample with kind MemoryOnly.
   */
  lemma NoFrameMeansMemoryOnly(layout: Layout, os: Os, s: Sampler, empty: Sample, elapsed: int)
    requires layout.WellFormed()
    requires FrameOf(layout, os, s).None?
    ensures var r := Walk(layout, os, s, empty, elapsed);
            && r.kind == MemoryOnly
            && r.location == empty.location && r.symbol == empty.symbol && r.arginfo == empty.arginfo
  {
  }

  /** An unreadable type tag jumps to the insert after the argument snapshot. */
  lemma TypeFailureKeepsOnlyArgs(layout: Layout, os: Os, s: Sampler, empty: Sample, elapsed: int)
    requires layout.WellFormed()
    requires FrameOf(layout, os, s).Some?
    requires FunctionType(layout, os, s.pid, FrameOf(layout, os, s).value.1).None?
    ensures var r := Walk(layout, os, s, empty, elapsed);
            var (fp, frame) := FrameOf(layout, os, s).value;
            && r.kind == MemoryOnly
            && r.location == empty.location && r.symbol == empty.symbol
            && r.arginfo == CaptureArgs(layout, os, s, fp, frame, empty).arginfo
  {
  }

  /** An unreadable line number of a user function jumps to the insert: no location, no symbol. */
  lemma LineFailureKeepsNoLocation(layout: Layout, os: Os, s: Sampler, empty: Sample, elapsed: int)
    requires layout.WellFormed()
    requires FrameOf(layout, os, s).Some?
    requires FunctionType(layout, os, s.pid, FrameOf(layout, os, s).value.1) == Some(UserFunctionType)
    requires LineOf(layout, os, s.pid, FrameOf(layout, os, s).value.1).None?
    ensures var r := Walk(layout, os, s, empty, elapsed);
            r.kind == MemoryOnly && r.location == empty.location && r.symbol == empty.symbol
  {
  }

  /**
   * An unreadable scope pointer jumps to the insert with no symbol at all, but whatever the
   * location stage stored — a resolved file name included — stays in the sample.
   */
  lemma ScopeFailureKeepsLocation(layout: Layout, os: Os, s: Sampler, empty: Sample, elapsed: int)
    requires layout.WellFormed()
    requires FrameOf(layout, os, s).Some?
    requires var frame := FrameOf(layout, os, s).value.1;
             && FunctionType(layout, os, s.pid, frame) == Some(UserFunctionType)
             && LineOf(layout, os, s.pid, frame).Some? && LineOf(layout, os, s.pid, frame).value != 0
             && FileName(layout, os, s.pid, frame).Some?
             && ScopeOf(layout, os, s.pid, frame).None?
    ensures var r := Walk(layout, os, s, empty, elapsed);
            var frame := FrameOf(layout, os, s).value.1;
            && r.kind == MemoryOnly
            && r.symbol == empty.symbol
            && r.location == Location(FileName(layout, os, s.pid, frame), LineOf(layout, os, s.pid, frame).value)
  {
  }

  /**
   * An unreadable scope pointer jumps to the insert with the empty symbol, for user and
   * internal functions alike.
   */
  lemma ScopeFailureDropsSymbol(layout: Layout, os: Os, s: Sampler, empty: Sample, elapsed: int)
    requires layout.WellFormed()
    requires FrameOf(layout, os, s).Some?
    requires var frame := FrameOf(layout, os, s).value.1;
             && FunctionType(layout, os, s.pid, frame).Some?
             && (FunctionType(layout, os, s.pid, frame).value == UserFunctionType ==>
                   LineOf(layout, os, s.pid, frame).Some?)
             && ScopeOf(layout, os, s.pid, frame).None?
    ensures var r := Walk(layout, os, s, empty, elapsed);
            r.kind == MemoryOnly && r.symbol == empty.symbol
  {
  }

  /**
   * An unresolvable class name jumps to the insert, for user and internal functions alike:
   * scope NULL, function name untouched.
   */
  lemma ClassNameFailureSkipsName(layout: Layout, os: Os, s: Sampler, empty: Sample, elapsed: int)
    requires layout.WellFormed()
    requires FrameOf(layout, os, s).Some?
    requires var frame := FrameOf(layout, os, s).value.1;
             && FunctionType(layout, os, s.pid, frame).Some?
             && (FunctionType(layout, os, s.pid, frame).value == UserFunctionType ==>
                   LineOf(layout, os, s.pid, frame).Some?)
             && ScopeOf(layout, os, s.pid, frame).Some? && ScopeOf(layout, os, s.pid, frame).value != Null
             && ClassName(layout, os, s.pid, ScopeOf(layout, os, s.pid, frame).value).None?
    ensures var r := Walk(layout, os, s, empty, elapsed);
            r.kind == MemoryOnly && r.symbol == Symbol(None, empty.symbol.name)
  {
  }

  /**
   * A failed file-name lookup drops the kind but does not end the walk: the scope, its class
   * name and the function name are still resolved and stored.
   */
  lemma FileFailureStillNamesFunction(layout: Layout, os: Os, s: Sampler, empty: Sample, elapsed: int)
    requires layout.WellFormed()
    requires FrameOf(layout, os, s).Some?
    requires var frame := FrameOf(layout, os, s).value.1;
             && FunctionType(layout, os, s.pid, frame) == Some(UserFunctionType)
             && LineOf(layout, os, s.pid, frame).Some? && LineOf(layout, os, s.pid, frame).value != 0
             && FileName(layout, os, s.pid, frame).None?
             && ScopeOf(layout, os, s.pid, frame).Some?
             && (ScopeOf(layout, os, s.pid, frame).value != Null ==>
                   ClassName(layout, os, s.pid, ScopeOf(layout, os, s.pid, frame).value).Some?)
    ensures var r := Walk(layout, os, s, empty, elapsed);
            var frame := FrameOf(layout, os, s).value.1;
            var scope := ScopeOf(layout, os, s.pid, frame).value;
            && r.kind == MemoryOnly
            && r.location.file.None?
            && r.symbol.scope == (if scope == Null then empty.symbol.scope else ClassName(layout, os, s.pid, scope))
            && r.symbol.name == FunctionName(layout, os, s.pid, frame)
  {
  }

  /**
   * A method — a function whose scope is a class — stores that class's name as the scope and
   * its own name as the function, whatever its type tag; with every read on the way
   * succeeding, it keeps its kind.
   */
  lemma ClassMethodSample(layout: Layout, os: Os, s: Sampler, empty: Sample, elapsed: int,
                          className: Str, name: Str)
    requires layout.WellFormed()
    requires FrameOf(layout, os, s).Some?
    requires var frame := FrameOf(layout, os, s).value.1;
             && FunctionType(layout, os, s.pid, frame).Some?
             && (FunctionType(layout, os, s.pid, frame).value == UserFunctionType ==>
                   LineOf(layout, os, s.pid, frame).Some?)
             && ScopeOf(layout, os, s.pid, frame).Some? && ScopeOf(layout, os, s.pid, frame).value != Null
             && ClassName(layout, os, s.pid, ScopeOf(layout, os, s.pid, frame).value) == Some(className)
             && FunctionName(layout, os, s.pid, frame) == Some(name)
    ensures var r := Walk(layout, os, s, empty, elapsed);
            var frame := FrameOf(layout, os, s).value.1;
            && r.symbol == Symbol(Some(className), Some(name))
            && (r.kind == MemoryOnly <==>
                  && FunctionType(layout, os, s.pid, frame).value == UserFunctionType
                  && LineOf(layout, os, s.pid, frame).value != 0
                  && FileName(layout, os, s.pid, frame).None?)
  {
  }

  /** A user function on line 0 keeps the user kind and never looks up its file. */
  lemma ZeroLineStaysUser(layout: Layout, os: Os, s: Sampler, empty: Sample, elapsed: int)
    requires layout.WellFormed()
    requires FrameOf(layout, os, s).Some?
    requires var frame := FrameOf(layout, os, s).value.1;
             && FunctionType(layout, os, s.pid, frame) == Some(UserFunctionType)
             && LineOf(layout, os, s.pid, frame) == Some(0)
             && SymbolsReadable(layout, os, s.pid, frame)
    ensures var r := Walk(layout, os, s, empty, elapsed);
            r.kind == UserFunction && r.location == Location(empty.location.file, 0)
  {
  }

  /**
   * A user function with a line, a file, no class and a name yields exactly that location and
   * function name under the user kind.
   */
  lemma UserFrameSample(layout: Layout, os: Os, s: Sampler, empty: Sample, elapsed: int,
                        line: nat, file: Str, name: Str)
    requires layout.WellFormed()
    requires FrameOf(layout, os, s).Some?
    requires var frame := FrameOf(layout, os, s).value.1;
             && FunctionType(layout, os, s.pid, frame) == Some(UserFunctionType)
             && LineOf(layout, os, s.pid, frame) == Some(line) && line != 0
             && FileName(layout, os, s.pid, frame) == Some(file)
             && ScopeOf(layout, os, s.pid, frame) == Some(Null)
             && FunctionName(layout, os, s.pid, frame) == Some(name)
    ensures var r := Walk(layout, os, s, empty, elapsed);
            && r.kind == UserFunction
            && r.location == Location(Some(file), line)
            && r.symbol == Symbol(empty.symbol.scope, Some(name))
  {
  }

  /**
   * With capture on and a reachable frame, the snapshot holds min(argument count, capacity)
   * slots when there are none to copy or they can be read, and none otherwise; it never
   * exceeds either bound. Otherwise it is the empty sample's.
   */
  lemma ArgInfoBounds(layout: Layout, os: Os, s: Sampler, empty: Sample, elapsed: int)
    requires layout.WellFormed()
    ensures var r := Walk(layout, os, s, empty, elapsed);
            if s.arginfo && FrameOf(layout, os, s).Some? then
              var (fp, frame) := FrameOf(layout, os, s).value;
              var n := Min(frame.numArgs, layout.maxArgInfo);
              && r.arginfo.length ==
                   (if n == 0 || Readable(os, s.pid, fp + layout.argsAt, layout.zvalSize * n) then n else 0)
              && r.arginfo.length <= frame.numArgs
              && r.arginfo.length <= layout.maxArgInfo
            else
              r.arginfo == empty.arginfo
  {
  }
}

=== FILE: wrappers.dfy ===
/** The optional-value type used wherever the sampler can observe a NULL or a failed read. */
module Wrappers {

  /** `None` stands for a NULL result or a failed remote read. */
  datatype Option<+T> = None | Some(value: T) {

    /** Returns the encapsulated value, or `default` when there is none. */
    function GetOr(default: T): T {
      match this
      case Some(v) => v
      case None => default
    }
  }
}
